=== FILE: README.md ===
# Changelog viewer: filter, aggregate and view-state engine

A Dafny model of the logic at the centre of the changelog viewer. The viewer shows a versioned changelog: entries, each holding changes. Users narrow it by free-text search, selected tags, version and date window. The model covers:

- the two change predicates: `matchChange` in `lib/utils.ts` and the differing closure in `components/changelog-viewer.tsx`;
- the entry filter, which combines version, inclusive date window and "some change matches", and the per-entry change filter;
- the aggregates taken over the unfiltered changelog: the sorted tag vocabulary, the version list, the oldest/newest date folds and the calendar's disabled-day test;
- the filter-state transitions `addTagFilter`, `removeTagFilter`, `clearFilters` and `hasFilters`, plus the entry page's unconditional tag selection;
- the expansion map: the manual toggle and the effect that auto-expands filtered versions or resets the map;
- the deep-link lookups of an entry by version and of a change by version and id, with their not-found outcomes, and the choice of page from the `version`/`id` parameters.

Everything is a pure function over immutable datatypes (`Types.Change`, `Types.Entry`, `Types.ChangelogFile`). React state becomes explicit arguments and results. Parsed dates are integers. `toLowerCase` is ASCII lowering (`Text.LowerChar`). `includes` is substring search (`Text.Includes`). The proofs relate it to an offset-based reference definition (`Text.Occurs`).

The two list pages share one entry filter, parameterised by `EntryFilter.Matcher`. `views/changelog-view.tsx` and `views/entry-view.tsx` use the library predicate (`LibMatcher`). `components/changelog-viewer.tsx` uses its own closure (`ViewerMatcher`). The library predicate searches the title without regard to case, and commits and tags case-sensitively. The closure searches title, description and impact without regard to case, and commits case-sensitively. It does not search tags. So a query found only in a tag matches under the library predicate and not under the closure, and a query found only in a description or impact matches under the closure and not under the library predicate. The model keeps both variants (`ViewerMatch.VariantsDiffer` exhibits the difference).

The entry page declares its `changelog` prop as the wrapped file and reads `.entries` from it (`views/entry-view.tsx:22,35`). The list page, however, hands it the bare entry array (`views/changelog-view.tsx:54,224`). On an array, `.entries` is the iterator method, which has no `find`, so as written every `?version=` link throws a TypeError. `Views.EntryViewAsWritten` models that, and "## Findings" records it. The rest of the model uses the evidently intended page, `Views.EntryView`, which takes the entry list that the list page passes.

## Model

| member | source | states |
|---|---|---|
| `Text.IncludesIffOccurs` | lib/utils.ts:21-23 | `includes` holds exactly when the needle occurs at some offset; the empty needle occurs everywhere |
| `Clauses.SomeIncludesIff` | lib/utils.ts:22-23 | `.some(x => x.includes(q))` holds iff some element contains `q`, with case significant |
| `Clauses.EveryIncludedIff` | lib/utils.ts:26-28 | `.every(t => tags.includes(t))` holds iff every selected tag is a member of the tag list |
| `Clauses.TagClauseDependsOnSetOnly` | lib/utils.ts:26-28 | the tag clause depends only on the set of selected tags, not on their order or repetition |
| `Clauses.TagClauseExtend` | lib/utils.ts:26-28 | selecting one more tag keeps the clause iff it held before and the change carries that tag |
| `LibMatch.MatchChangeIff` | lib/utils.ts:14-31 | match iff (query empty, or lowered query in lowered title, or query in some commit, or in some tag) and every selected tag is carried |
| `LibMatch.EmptyFiltersAdmitAll` | lib/utils.ts:19-28 | empty query and no selected tag admit every change |
| `LibMatch.EmptyQueryIsTagConjunction` | lib/utils.ts:26-28 | with an empty query the result is true iff every selected tag is in the change's tags (AND, not OR) |
| `LibMatch.SelectingTagNarrows` | lib/utils.ts:26-28 | adding a selected tag can turn true into false but never false into true |
| `LibMatch.SelectionSetSuffices` | lib/utils.ts:27-28 | order and duplication of the selection never change the result |
| `LibMatch.TitleHitSuffices` | lib/utils.ts:21 | a case-insensitive title hit satisfies the search clause |
| `LibMatch.DescriptionAndImpactIgnored` | lib/utils.ts:19-23 | description and impact never influence the result |
| `LibMatch.DescriptionOnlyHitFails` | lib/utils.ts:19-23 | a non-empty query absent from lowered title, commits and tags fails the search clause |
| `LibMatch.CommitSearchIsCaseSensitive` | lib/utils.ts:21-22 | "fix" finds title "Fix Bug"; "abc" misses commit ABC123 while "ABC" finds it |
| `ViewerMatch.SearchClauseIff` | components/changelog-viewer.tsx:143-154 | the search clause holds iff the query is empty, or occurs lowered in lowered title, description or impact, or verbatim in a commit; tags are not consulted |
| `ViewerMatch.MatchChangeIff` | components/changelog-viewer.tsx:140-164 | the closure is the search clause and the conjunction of selected tags |
| `ViewerMatch.TagsNotSearched` | components/changelog-viewer.tsx:143-154 | with nothing selected, replacing a change's tags never changes the result |
| `ViewerMatch.EmptyFiltersAdmitAll` | components/changelog-viewer.tsx:143-159 | empty query and no selected tag admit every change |
| `ViewerMatch.SelectionSetSuffices` | components/changelog-viewer.tsx:157-159 | order and duplication of the selection never change the result |
| `ViewerMatch.AgreesWithLibOutsideDifferingFields` | components/changelog-viewer.tsx:143-154 | the closure and the library predicate agree whenever the query hits no description, impact or tag |
| `ViewerMatch.VariantsDiffer` | components/changelog-viewer.tsx:143-154 | a tag-only hit matches the library predicate but not the closure; a description-only hit the reverse |
| `FilterState.ClearFilters` | components/changelog-viewer.tsx:124-129 | after clearing, no filter is active: empty query, no tags, no date window |
| `FilterState.NoFiltersIsCleared` | views/changelog-view.tsx:135-142 | `hasFilters` is false exactly for the cleared state, with version "" or "all" |
| `FilterState.RemoveAll` | components/changelog-viewer.tsx:119-121 | removing a tag drops every occurrence of it and keeps every other selected tag |
| `FilterState.RemoveAllKeepsOrder` | views/changelog-view.tsx:123-125 | the remaining tags are the selection at exactly the positions not holding the tag, in order |
| `FilterState.RemoveAbsentIsIdentity` | views/entry-view.tsx:127-129 | deselecting a tag that is not selected leaves the selection unchanged |
| `FilterState.AddIfAbsent` | components/changelog-viewer.tsx:112-116 | adding puts the tag in and keeps the old selection as a prefix; the selection is unchanged when the tag is already in it, whatever else it holds, and otherwise grows by exactly the tag; so it never creates a duplicate |
| `FilterState.AddThenRemove` | views/changelog-view.tsx:116-125 | adding an unselected tag and then removing it restores the selection |
| `FilterState.AddTagFilter` | views/changelog-view.tsx:116-120 | only the tag selection changes, by add-if-absent; afterwards the tag is selected, every earlier tag still is, and a filter is active |
| `FilterState.RemoveTagFilter` | views/changelog-view.tsx:123-125 | only the tag selection changes, by removing every occurrence; afterwards the tag is not selected and no other tag was added |
| `FilterState.SelectTag` | views/entry-view.tsx:124-126 | the entry page appends the tag even when already selected |
| `FilterState.SelectTagSameSet` | views/entry-view.tsx:124-126 | re-selecting a selected tag leaves the set of selected tags unchanged |
| `EntryFilter.FilterChanges` | views/changelog-view.tsx:165-167 | the filtered changes are changes of the entry that match |
| `EntryFilter.FilterChangesPositions` | views/changelog-view.tsx:164-167 | the filtered changes are the changes at exactly the matching positions, in original order |
| `EntryFilter.FilterChangesNonEmptyIff` | views/changelog-view.tsx:164-169 | some change survives iff some change matches |
| `EntryFilter.FilteredChangelog` | components/changelog-viewer.tsx:167-191 | every kept entry comes from the changelog and passes the filter |
| `EntryFilter.FilteredChangelogPositions` | components/changelog-viewer.tsx:167-190 | the result is the order-preserving subsequence of exactly the entries the filter keeps |
| `EntryFilter.EntryKeptIff` | components/changelog-viewer.tsx:170-189 | kept iff version is "", "all" or equal, from <= date <= to for each set bound, and some change matches |
| `EntryFilter.FilteredChangelogMembers` | views/changelog-view.tsx:145-170 | an entry is in the filtered list iff it is in the changelog and passes all three clauses |
| `EntryFilter.MatchesFewerTags` | lib/utils.ts:26-28 | for either predicate, a change admitted under a tag selection is admitted under any selection with fewer tags |
| `EntryFilter.EntryKeptFewerTags` | views/changelog-view.tsx:145-170 | an entry kept under a tag selection is kept under any selection with fewer tags |
| `EntryFilter.AddTagFilterNarrows` | views/changelog-view.tsx:116-120 | after `addTagFilter` every entry still listed was listed before |
| `EntryFilter.RemoveTagFilterWidens` | views/changelog-view.tsx:123-125 | after `removeTagFilter` every entry listed before is still listed |
| `EntryFilter.NoFilterKeepsAllChanges` | views/entry-view.tsx:31-60 | with an empty query and no selected tag, as the entry page starts, every change is kept, in order |
| `EntryFilter.FilterIdempotent` | views/changelog-view.tsx:145-170 | filtering the filtered list again with the same filters changes nothing |
| `EntryFilter.NoFiltersKeepsNonEmpty` | views/changelog-view.tsx:145-170 | with no filter active the result is exactly the entries that have changes |
| `EntryFilter.DateBoundsInclusive` | views/changelog-view.tsx:157-162 | a date passes the window iff from <= date <= to, so both bounds are inclusive |
| `Aggregates.ChangeTagsMembers` | components/changelog-viewer.tsx:91-93 | the collected tags of a change list are exactly the tags some change carries |
| `Aggregates.ChangelogTagsMembers` | components/changelog-viewer.tsx:89-94 | the collected tags of the changelog are exactly the tags some change of some entry carries |
| `Aggregates.AllTags` | components/changelog-viewer.tsx:88-96 | the vocabulary is strictly sorted (so duplicate-free) and holds exactly the union of all change tags; it takes no filter |
| `Aggregates.AllTagsIsSortedUnion` | views/changelog-view.tsx:91-100 | any strictly sorted listing of the tag union equals the vocabulary, so it does not depend on collection order |
| `Aggregates.AllVersions` | components/changelog-viewer.tsx:99-101 | same length and order as the changelog, the i-th item is the i-th version, repeats kept |
| `Aggregates.OldestFrom` | views/changelog-view.tsx:185-187 | the fold ends on the first position holding the least date: ties keep the earlier element |
| `Aggregates.NewestFrom` | views/changelog-view.tsx:188-190 | the fold ends on the first position holding the greatest date: ties keep the earlier element |
| `Aggregates.DateRangeBounds` | components/changelog-viewer.tsx:193-211 | absent iff the changelog is empty; otherwise both bounds are set, are entry dates, and enclose every entry date |
| `Aggregates.DisabledIffOutsideAllDates` | views/changelog-view.tsx:277-293 | a day is disabled iff the changelog is non-empty and the day is before every entry date or after every entry date |
| `Aggregates.EntryDatesSelectable` | views/changelog-view.tsx:277-293 | no entry's own date is disabled |
| `Ordering.BelowTotal` | components/changelog-viewer.tsx:95 | the sort order ranks any two different strings |
| `Ordering.BelowTransitive` | components/changelog-viewer.tsx:95 | the sort order is transitive |
| `Ordering.Sort` | components/changelog-viewer.tsx:95 | sorting distinct strings gives a strictly increasing list of the same strings |
| `Ordering.SortedUnique` | components/changelog-viewer.tsx:95 | two strictly sorted lists with the same strings are equal |
| `Seqs.Dedup` | views/entry-view.tsx:45-51 | the set-backed collection holds each element once and exactly the elements of the input |
| `Seqs.DedupFirstOccurrenceOrder` | views/entry-view.tsx:45-51 | the collection lists elements in the order of their first occurrence |
| `Expansion.ToggleExpanded` | views/changelog-view.tsx:108-113 | the toggled version's flag is negated (absent reads as collapsed), every other key is unchanged |
| `Expansion.ToggleTwice` | views/changelog-view.tsx:108-113 | toggling twice restores every flag, and the map itself when the key was present |
| `Expansion.ExpandEach` | views/changelog-view.tsx:203-211 | every visited version ends expanded, other keys keep their values, nothing expanded is collapsed |
| `Expansion.ExpansionEffect` | views/changelog-view.tsx:200-215 | with filters and a non-empty result every filtered version maps to true and other keys are unchanged; otherwise the map is empty |
| `Expansion.EffectIdempotent` | components/changelog-viewer.tsx:213-228 | running the effect again on its own output with the same inputs changes nothing |
| `Lookups.EntryIndex` | views/entry-view.tsx:34-38 | the position found is the first entry with the version; none iff no entry has it |
| `Lookups.FindEntry` | views/entry-view.tsx:34-38 | not found iff no entry has the version; otherwise the first entry with it |
| `Lookups.FindEntryIffListed` | views/changelog-view.tsx:103-105 | a version can be looked up iff it is in the version list |
| `Lookups.ChangeIndex` | views/change-view.tsx:33-35 | the position found is the first change with the id; none iff no change has it |
| `Lookups.LookupChange` | views/change-view.tsx:29-49 | found iff the first entry with the version has a change with the id; the found change is the first such, its entry has the version; not-found reports both identifiers |
| `Lookups.DuplicateVersionShadowed` | views/change-view.tsx:29-31 | a change that only a later entry with a repeated version holds is reported not found |
| `Views.CardsCoverFiltered` | views/changelog-view.tsx:317-324 | every filtered entry gets a card with a non-empty change list, so the render-nothing branch is never taken |
| `Views.EntryTags` | views/entry-view.tsx:40-52 | no duplicates, exactly the tags of the entry's changes, empty when the version is absent |
| `Views.EntryTagsFirstSeenOrder` | views/entry-view.tsx:45-51 | entry tags follow first-mention order, not sorted order |
| `Views.EntryFilteredChanges` | views/entry-view.tsx:54-60 | the result is the found entry's changes at exactly the positions the library predicate accepts, in order; empty when the version is absent |
| `Views.RepeatedSelectionHarmless` | views/entry-view.tsx:124-126 | a duplicate selection never changes the changes shown |
| `Views.EntryView` | views/entry-view.tsx:34-73 | not-found page iff no entry has the version, naming that version; otherwise the first entry with it, its tags each once and exactly those of its changes, and its changes at exactly the positions the library predicate accepts, in order |
| `Views.EntryViewAsWritten` | views/entry-view.tsx:20-38 | as written the page throws exactly when it receives the bare entry array; given the wrapped file it renders, not-found iff no entry has the version |
| `Views.EntryRouteAsWrittenThrows` | views/changelog-view.tsx:222-225 | for a listed version the page as written throws, while the intended page shows the entry |
| `Views.Dispatch` | views/changelog-view.tsx:222-234 | entry and change routes carry the parameters they were chosen from |
| `Views.DispatchCases` | views/changelog-view.tsx:222-234 | no usable version gives the list even with an id; an empty id counts as absent; a non-empty version without a non-empty id gives that version's entry page; with both, the change page |
| `Views.Render` | views/changelog-view.tsx:217-234 | the list, entry and change screens appear exactly on their routes; the list has one card per filtered entry, in order, each showing that entry's changes that match the page's query and tags, never none; the entry screen is not-found iff no entry has the version and then names that version, and otherwise shows the first such entry, its tags once each and exactly those of its changes, and all its changes, since the entry page starts from an empty query and selection (views/entry-view.tsx:31-32); the change screen finds the change iff the version's first entry holds the id, and then shows a change with that id inside that first entry; otherwise it names the requested id and version |
| `Views.MissingChangeReported` | views/change-view.tsx:37-49 | a change link to a missing change renders not-found with the requested id and version |
| `Views.ClearThenEffect` | views/changelog-view.tsx:128-133 | after clearing, the filtered list is every entry with changes and the effect empties the expansion map |
| `Views.TwoEntryScenario` | views/changelog-view.tsx:145-215 | entries v1.0.0 ("fix") and v1.1.0 ("feat"), selecting "fix": only v1.0.0 survives with its change, and only it is expanded |

## Left out

- Fetching the changelog, the loading flag and the fetch and format error states: network I/O and promise plumbing.
- `isChangelogEntryArray` (the document-shape check) and `truncateString`: they are imported from `lib/utils.ts` but their definitions are not part of this model. The model starts from a well-typed entry list and does not model document validation.
- ISO date parsing and display formatting: dates are the integers parsing would give. JavaScript's Invalid Date, whose comparisons are all false, is not modelled.
- `Aggregates.IsDayDisabled`, `Aggregates.EntryDatesSelectable`: the calendar compares a local-midnight day with entry timestamps that may carry a time of day. The model places days and timestamps on one integer scale, so `EntryDatesSelectable` holds only there. In the program, if the earliest entry is dated "2024-01-01T10:00", the midnight of its own calendar day comes before it and that day is disabled.
- `Text.LowerChar`: lowers ASCII letters only, where `toLowerCase` applies the full Unicode case mapping.
- `Ordering.Below`: compares characters by code point, where the default `sort` compares UTF-16 code units. The two orders differ only between characters beyond U+FFFF and those in U+E000–U+FFFF.
- React scheduling: the order in which memos and effects run, and the re-render that the effect's state update triggers. The effect is modelled as one transition function (`Expansion.ExpansionEffect`).
- Routing and URL building: links, breadcrumbs, `encodeURIComponent`, the share button's clipboard and timer.
- Presentation components: the tag and date-range pickers, cards, badges, class-name merging, and shortening commits to seven characters.
- `Views.Render`, `Views.EntryView`: the entry route renders the evidently intended page on the entry list. As written, the page reads `.entries` of the bare array it is given and throws (`Views.EntryViewAsWritten`, under "## Findings").
- `Expansion.ToggleExpanded`, `Expansion.ExpandEach`: the expansion map is a map, not a JavaScript object. In the program, `version in prev` and `prev[version]` also see keys inherited from `Object.prototype`. So a version named `toString` or `constructor` is not auto-expanded while the map has no own key for it, and its first toggle writes an own `false`; after that the effect does expand it. The model treats such a key as absent: the effect writes `true`, and so does the toggle.

## Findings

| source | as written | input that shows it | evidently intended | confidence | as-written member | corrected member |
|---|---|---|---|---|---|---|
| views/entry-view.tsx:35 with views/changelog-view.tsx:224 | `changelog.entries.find(...)`, where the list page passes the bare `ChangelogEntry[]`; `.entries` is then `Array.prototype.entries`, which has no `find`, so the page throws a TypeError | `?version=v1.0.0` with a changelog holding one entry `v1.0.0` | look the version up in the entry list and show that entry | high, from reading; not executed | `Views.EntryViewAsWritten`, `Views.EntryRouteAsWrittenThrows` | `Views.EntryView` (used by `Views.Render`) |

=== FILE: aggregates.dfy ===
/**
 * Values derived from the whole, unfiltered changelog: the tag vocabulary,
 * the version list, the date bounds, and the calendar's disabled-day test
 * built on those bounds. None of them takes a filter.
 */
module Aggregates {
  import opened Wrappers
  import opened Types
  import opened Seqs
  import opened Ordering
  import opened FilterState

  /** Every tag of every change, in the order `forEach` visits them, repeats included. */
  function ChangeTags(changes: seq<Change>): seq<string> {
    if |changes| == 0 then [] else changes[0].tags + ChangeTags(changes[1..])
  }

  function ChangelogTags(changelog: seq<Entry>): seq<string> {
    if |changelog| == 0 then [] else ChangeTags(changelog[0].changes) + ChangelogTags(changelog[1..])
  }

  ghost predicate TagInChanges(changes: seq<Change>, t: string) {
    exists c :: c in changes && t in c.tags
  }

  ghost predicate TagInChangelog(changelog: seq<Entry>, t: string) {
    exists e :: e in changelog && TagInChanges(e.changes, t)
  }

  lemma {:induction false} ChangeTagsMembers(changes: seq<Change>)
    ensures forall t :: t in ChangeTags(changes) <==> TagInChanges(changes, t)
  {
    if |changes| > 0 {
      ChangeTagsMembers(changes[1..]);
      assert changes == [changes[0]] + changes[1..];
    }
  }

  lemma {:induction false} ChangelogTagsMembers(changelog: seq<Entry>)
    ensures forall t :: t in ChangelogTags(changelog) <==> TagInChangelog(changelog, t)
  {
    if |changelog| > 0 {
      ChangeTagsMembers(changelog[0].changes);
      ChangelogTagsMembers(changelog[1..]);
      assert changelog == [changelog[0]] + changelog[1..];
    }
  }

  /**
   * `Array.from(tags).sort()` over the set of all tags: strictly increasing,
   * so free of repeats, and holding exactly the tags some change carries.
   */
  function AllTags(changelog: seq<Entry>): (r: seq<string>)
    ensures StrictlySorted(r)
    ensures forall t :: t in r <==> TagInChangelog(changelog, t)
  {
    ChangelogTagsMembers(changelog);
    Sort(Dedup(ChangelogTags(changelog)))
  }

  /**
   * The vocabulary is the one strictly sorted listing of the tag union: it
   * does not depend on the order in which entries, changes or tags appear.
   */
  lemma AllTagsIsSortedUnion(changelog: seq<Entry>, listing: seq<string>)
    requires StrictlySorted(listing)
    requires forall t :: t in listing <==> TagInChangelog(changelog, t)
    ensures listing == AllTags(changelog)
  {
    SortedUnique(listing, AllTags(changelog));
  }

  /** `changelog.map((entry) => entry.version)`: a projection, repeats kept. */
  function AllVersions(changelog: seq<Entry>): (r: seq<string>)
    ensures |r| == |changelog|
    ensures forall i :: 0 <= i < |changelog| ==> r[i] == changelog[i].version
  {
    if |changelog| == 0 then [] else [changelog[0].version] + AllVersions(changelog[1..])
  }

  /** The parsed dates, one per entry, in order. */
  function Dates(changelog: seq<Entry>): (r: seq<int>)
    ensures |r| == |changelog|
    ensures forall i :: 0 <= i < |changelog| ==> r[i] == changelog[i].date
  {
    seq(|changelog|, i requires 0 <= i < |changelog| => changelog[i].date)
  }

  /**
   * The `reduce` step `compareAsc(min, curr) <= 0 ? min : curr` from position
   * `i` on, with `acc` the position kept so far. The result is the first
   * position holding the least date: on ties the earlier element stays.
   */
  function OldestFrom(dates: seq<int>, acc: nat, i: nat): (r: nat)
    requires acc < i <= |dates|
    requires forall j :: 0 <= j < i ==> dates[acc] <= dates[j]
    requires forall j :: 0 <= j < acc ==> dates[acc] < dates[j]
    ensures r < |dates|
    ensures forall j :: 0 <= j < |dates| ==> dates[r] <= dates[j]
    ensures forall j :: 0 <= j < r ==> dates[r] < dates[j]
    decreases |dates| - i
  {
    if i == |dates| then acc
    else OldestFrom(dates, if dates[acc] <= dates[i] then acc else i, i + 1)
  }

  /** The mirror fold `compareDesc(max, curr) <= 0 ? max : curr`: first position of the greatest date. */
  function NewestFrom(dates: seq<int>, acc: nat, i: nat): (r: nat)
    requires acc < i <= |dates|
    requires forall j :: 0 <= j < i ==> dates[j] <= dates[acc]
    requires forall j :: 0 <= j < acc ==> dates[j] < dates[acc]
    ensures r < |dates|
    ensures forall j :: 0 <= j < |dates| ==> dates[j] <= dates[r]
    ensures forall j :: 0 <= j < r ==> dates[j] < dates[r]
    decreases |dates| - i
  {
    if i == |dates| then acc
    else NewestFrom(dates, if dates[acc] >= dates[i] then acc else i, i + 1)
  }

  /**
   * `dateRangeBounds`: absent for an empty changelog, otherwise the oldest and
   * newest entry dates, both set.
   */
  function DateRangeBounds(changelog: seq<Entry>): (r: Option<DateRange>)
    ensures r.None? <==> |changelog| == 0
    ensures r.Some? ==> r.value.from.Some? && r.value.to.Some? && r.value.from.value <= r.value.to.value
    ensures r.Some? ==> forall e :: e in changelog ==> r.value.from.value <= e.date <= r.value.to.value
    ensures r.Some? ==> exists e :: e in changelog && e.date == r.value.from.value
    ensures r.Some? ==> exists e :: e in changelog && e.date == r.value.to.value
  {
    if |changelog| == 0 then None
    else
      var ds := Dates(changelog);
      var lo := OldestFrom(ds, 0, 1);
      var hi := NewestFrom(ds, 0, 1);
      assert changelog[lo] in changelog && changelog[hi] in changelog;
      Some(DateRange(Some(ds[lo]), Some(ds[hi])))
  }

  /** The calendar's `disabled` callback: a day outside the bounds cannot be picked. */
  predicate IsDayDisabled(day: int, bounds: Option<DateRange>) {
    match bounds
    case None => false
    case Some(b) => (b.from.Some? && day < b.from.value) || (b.to.Some? && day > b.to.value)
  }

  /**
   * Against the changelog's own bounds, a day is disabled exactly when it lies
   * before every entry date or after every entry date.
   */
  lemma DisabledIffOutsideAllDates(changelog: seq<Entry>, day: int)
    ensures IsDayDisabled(day, DateRangeBounds(changelog)) <==>
      |changelog| > 0 &&
      ((forall e :: e in changelog ==> day < e.date) || (forall e :: e in changelog ==> day > e.date))
  {
  }

  /** No entry's own date is disabled in the calendar. */
  lemma EntryDatesSelectable(changelog: seq<Entry>, e: Entry)
    requires e in changelog
    ensures !IsDayDisabled(e.date, DateRangeBounds(changelog))
  {
  }
}

=== FILE: clauses.dfy ===
/**
 * The pieces both change predicates are built from: "some string of a list
 * contains the query" and the conjunctive selected-tag clause.
 */
module Clauses {
  import opened Text
  import opened Types

  /** `xs.some((x) => x.includes(q))`: a case-sensitive substring hit in some element. */
  predicate SomeIncludes(xs: seq<string>, q: string) {
    |xs| > 0 && (Includes(xs[0], q) || SomeIncludes(xs[1..], q))
  }

  lemma {:induction false} SomeIncludesIff(xs: seq<string>, q: string)
    ensures SomeIncludes(xs, q) <==> exists k :: 0 <= k < |xs| && Occurs(xs[k], q)
  {
    if |xs| > 0 {
      IncludesIffOccurs(xs[0], q);
      SomeIncludesIff(xs[1..], q);
      if exists k :: 0 <= k < |xs| && Occurs(xs[k], q) {
        var k :| 0 <= k < |xs| && Occurs(xs[k], q);
        if k > 0 {
          assert xs[1..][k - 1] == xs[k];
        }
      }
      if SomeIncludes(xs[1..], q) {
        var k :| 0 <= k < |xs[1..]| && Occurs(xs[1..][k], q);
        assert xs[k + 1] == xs[1..][k];
      }
    }
  }

  /** `selected.every((tag) => tags.includes(tag))`. */
  predicate EveryIncluded(selected: seq<string>, tags: seq<string>) {
    |selected| == 0 || (selected[0] in tags && EveryIncluded(selected[1..], tags))
  }

  lemma {:induction false} EveryIncludedIff(selected: seq<string>, tags: seq<string>)
    ensures EveryIncluded(selected, tags) <==> forall t :: t in selected ==> t in tags
  {
    if |selected| > 0 {
      EveryIncludedIff(selected[1..], tags);
      assert selected == [selected[0]] + selected[1..];
    }
  }

  /**
   * The selected-tag clause, `selectedTags.length === 0 || selectedTags.every(...)`:
   * every selected tag is one of the change's tags, matched exactly.
   */
  predicate TagClause(c: Change, selected: seq<string>) {
    |selected| == 0 || EveryIncluded(selected, c.tags)
  }

  lemma TagClauseIff(c: Change, selected: seq<string>)
    ensures TagClause(c, selected) <==> forall t :: t in selected ==> t in c.tags
  {
    EveryIncludedIff(selected, c.tags);
  }

  /** Only the set of selected tags matters: not their order, not their repetition. */
  lemma TagClauseDependsOnSetOnly(c: Change, s1: seq<string>, s2: seq<string>)
    requires forall t :: t in s1 <==> t in s2
    ensures TagClause(c, s1) == TagClause(c, s2)
  {
    TagClauseIff(c, s1);
    TagClauseIff(c, s2);
  }

  /** Selecting one more tag keeps the clause exactly when the change carries that tag. */
  lemma TagClauseExtend(c: Change, selected: seq<string>, t: string)
    ensures TagClause(c, selected + [t]) <==> TagClause(c, selected) && t in c.tags
  {
    TagClauseIff(c, selected);
    TagClauseIff(c, selected + [t]);
  }
}

=== FILE: entry_filter.dfy ===
/**
 * The entry filter shared by both list views: the version clause, the
 * inclusive date window and "at least one change matches", applied to the
 * entries in order. The change predicate is a parameter because the two
 * list views use different ones.
 */
module EntryFilter {
  import opened Wrappers
  import opened Types
  import opened Seqs
  import opened FilterState
  import opened Clauses
  import LibMatch
  import ViewerMatch

  /** Which change predicate a view uses. */
  datatype Matcher =
    | LibMatcher     // lib/utils.ts, used by views/changelog-view.tsx and views/entry-view.tsx
    | ViewerMatcher  // the closure of components/changelog-viewer.tsx

  predicate Matches(m: Matcher, c: Change, q: string, selected: seq<string>) {
    match m
    case LibMatcher => LibMatch.MatchChange(c, q, selected)
    case ViewerMatcher => ViewerMatch.MatchChange(c, q, selected)
  }

  /** `entry.changes.filter(matchChange)`. */
  function FilterChanges(changes: seq<Change>, m: Matcher, q: string, selected: seq<string>): (r: seq<Change>)
    ensures |r| <= |changes|
    ensures forall c :: c in r ==> c in changes && Matches(m, c, q, selected)
  {
    if |changes| == 0 then []
    else
      var rest := FilterChanges(changes[1..], m, q, selected);
      if Matches(m, changes[0], q, selected) then [changes[0]] + rest else rest
  }

  /** The filtered changes are those at exactly the matching positions, in order. */
  lemma {:induction false} FilterChangesPositions(changes: seq<Change>, m: Matcher, q: string, selected: seq<string>)
    ensures exists idx :: && Embeds(idx, FilterChanges(changes, m, q, selected), changes)
                          && forall i :: 0 <= i < |changes| ==> (i in idx <==> Matches(m, changes[i], q, selected))
  {
    var r := FilterChanges(changes, m, q, selected);
    if |changes| == 0 {
      assert Embeds([], r, changes);
    } else {
      var tail := changes[1..];
      FilterChangesPositions(tail, m, q, selected);
      var rest :| && Embeds(rest, FilterChanges(tail, m, q, selected), tail)
                  && forall i :: 0 <= i < |tail| ==> (i in rest <==> Matches(m, tail[i], q, selected));
      var idx;
      if Matches(m, changes[0], q, selected) {
        EmbedsTake(rest, FilterChanges(tail, m, q, selected), changes);
        idx := [0] + Shift(rest);
      } else {
        EmbedsSkip(rest, FilterChanges(tail, m, q, selected), changes);
        idx := Shift(rest);
      }
      forall i | 0 < i < |changes|
        ensures i in idx <==> Matches(m, changes[i], q, selected)
      {
        assert tail[i - 1] == changes[i];
      }
      assert Embeds(idx, r, changes);
    }
  }

  /** Some change survives exactly when some change matches. */
  lemma {:induction false} FilterChangesNonEmptyIff(changes: seq<Change>, m: Matcher, q: string, selected: seq<string>)
    ensures |FilterChanges(changes, m, q, selected)| > 0 <==>
      exists k :: 0 <= k < |changes| && Matches(m, changes[k], q, selected)
  {
    if |changes| > 0 {
      FilterChangesNonEmptyIff(changes[1..], m, q, selected);
      if exists k :: 0 <= k < |changes| && Matches(m, changes[k], q, selected) {
        var k :| 0 <= k < |changes| && Matches(m, changes[k], q, selected);
        if k > 0 {
          assert changes[1..][k - 1] == changes[k];
        }
      }
      if |FilterChanges(changes[1..], m, q, selected)| > 0 {
        var k :| 0 <= k < |changes[1..]| && Matches(m, changes[1..][k], q, selected);
        assert changes[k + 1] == changes[1..][k];
      }
    }
  }

  /** `selectedVersion && selectedVersion !== "all" && entry.version !== selectedVersion` rejects. */
  predicate VersionClause(e: Entry, v: string) {
    AnyVersion(v) || e.version == v
  }

  /** A set lower bound rejects strictly earlier dates; a set upper bound rejects strictly later ones. */
  predicate DateClause(e: Entry, range: Option<DateRange>) {
    match range
    case None => true
    case Some(r) =>
      && !(r.from.Some? && e.date < r.from.value)
      && !(r.to.Some? && e.date > r.to.value)
  }

  predicate EntryKept(e: Entry, f: Filters, m: Matcher) {
    && VersionClause(e, f.selectedVersion)
    && DateClause(e, f.dateRange)
    && |FilterChanges(e.changes, m, f.searchQuery, f.selectedTags)| > 0
  }

  /** `changelog.filter(...)`: the entries the filter keeps, in their original order. */
  function FilteredChangelog(changelog: seq<Entry>, f: Filters, m: Matcher): (r: seq<Entry>)
    ensures |r| <= |changelog|
    ensures forall e :: e in r ==> e in changelog && EntryKept(e, f, m)
  {
    if |changelog| == 0 then []
    else
      var rest := FilteredChangelog(changelog[1..], f, m);
      if EntryKept(changelog[0], f, m) then [changelog[0]] + rest else rest
  }

  /**
   * The filtered changelog is the order-preserving subsequence of the
   * changelog made of exactly the entries the filter keeps.
   */
  lemma {:induction false} FilteredChangelogPositions(changelog: seq<Entry>, f: Filters, m: Matcher)
    ensures exists idx :: && Embeds(idx, FilteredChangelog(changelog, f, m), changelog)
                          && forall i :: 0 <= i < |changelog| ==> (i in idx <==> EntryKept(changelog[i], f, m))
  {
    var r := FilteredChangelog(changelog, f, m);
    if |changelog| == 0 {
      assert Embeds([], r, changelog);
    } else {
      var tail := changelog[1..];
      FilteredChangelogPositions(tail, f, m);
      var rest :| && Embeds(rest, FilteredChangelog(tail, f, m), tail)
                  && forall i :: 0 <= i < |tail| ==> (i in rest <==> EntryKept(tail[i], f, m));
      var idx;
      if EntryKept(changelog[0], f, m) {
        EmbedsTake(rest, FilteredChangelog(tail, f, m), changelog);
        idx := [0] + Shift(rest);
      } else {
        EmbedsSkip(rest, FilteredChangelog(tail, f, m), changelog);
        idx := Shift(rest);
      }
      forall i | 0 < i < |changelog|
        ensures i in idx <==> EntryKept(changelog[i], f, m)
      {
        assert tail[i - 1] == changelog[i];
      }
      assert Embeds(idx, r, changelog);
    }
  }

  /** An entry is kept exactly when its version and date pass and one of its changes matches. */
  lemma EntryKeptIff(e: Entry, f: Filters, m: Matcher)
    ensures EntryKept(e, f, m) <==>
      && (AnyVersion(f.selectedVersion) || e.version == f.selectedVersion)
      && (f.dateRange.Some? && f.dateRange.value.from.Some? ==> f.dateRange.value.from.value <= e.date)
      && (f.dateRange.Some? && f.dateRange.value.to.Some? ==> e.date <= f.dateRange.value.to.value)
      && exists k :: 0 <= k < |e.changes| && Matches(m, e.changes[k], f.searchQuery, f.selectedTags)
  {
    FilterChangesNonEmptyIff(e.changes, m, f.searchQuery, f.selectedTags);
  }

  /** An entry is in the filtered changelog exactly when it is in the changelog and the filter keeps it. */
  lemma {:induction false} FilteredChangelogMembers(changelog: seq<Entry>, f: Filters, m: Matcher)
    ensures forall e :: e in FilteredChangelog(changelog, f, m) <==> e in changelog && EntryKept(e, f, m)
  {
    if |changelog| > 0 {
      FilteredChangelogMembers(changelog[1..], f, m);
      assert changelog == [changelog[0]] + changelog[1..];
    }
  }

  /** Requiring fewer tags never rejects a change that requiring more of them admits. */
  lemma MatchesFewerTags(m: Matcher, c: Change, q: string, more: seq<string>, fewer: seq<string>)
    requires forall t :: t in fewer ==> t in more
    ensures Matches(m, c, q, more) ==> Matches(m, c, q, fewer)
  {
    TagClauseIff(c, more);
    TagClauseIff(c, fewer);
  }

  /** The same for a whole entry: fewer required tags keep every entry that more required tags keep. */
  lemma EntryKeptFewerTags(e: Entry, f: Filters, m: Matcher, fewer: seq<string>)
    requires forall t :: t in fewer ==> t in f.selectedTags
    ensures EntryKept(e, f, m) ==> EntryKept(e, f.(selectedTags := fewer), m)
  {
    FilterChangesNonEmptyIff(e.changes, m, f.searchQuery, f.selectedTags);
    FilterChangesNonEmptyIff(e.changes, m, f.searchQuery, fewer);
    if EntryKept(e, f, m) {
      var k :| 0 <= k < |e.changes| && Matches(m, e.changes[k], f.searchQuery, f.selectedTags);
      MatchesFewerTags(m, e.changes[k], f.searchQuery, f.selectedTags, fewer);
    }
  }

  /** `addTagFilter` narrows the list: every entry still shown was shown before. */
  lemma AddTagFilterNarrows(changelog: seq<Entry>, f: Filters, m: Matcher, tag: string)
    ensures forall e :: e in FilteredChangelog(changelog, AddTagFilter(f, tag), m) ==>
      e in FilteredChangelog(changelog, f, m)
  {
    var g := AddTagFilter(f, tag);
    FilteredChangelogMembers(changelog, f, m);
    FilteredChangelogMembers(changelog, g, m);
    forall e | e in FilteredChangelog(changelog, g, m)
      ensures e in FilteredChangelog(changelog, f, m)
    {
      EntryKeptFewerTags(e, g, m, f.selectedTags);
      assert g.(selectedTags := f.selectedTags) == f;
    }
  }

  /** `removeTagFilter` widens the list: every entry shown before is still shown. */
  lemma RemoveTagFilterWidens(changelog: seq<Entry>, f: Filters, m: Matcher, tag: string)
    ensures forall e :: e in FilteredChangelog(changelog, f, m) ==>
      e in FilteredChangelog(changelog, RemoveTagFilter(f, tag), m)
  {
    var g := RemoveTagFilter(f, tag);
    FilteredChangelogMembers(changelog, f, m);
    FilteredChangelogMembers(changelog, g, m);
    forall e | e in FilteredChangelog(changelog, f, m)
      ensures e in FilteredChangelog(changelog, g, m)
    {
      EntryKeptFewerTags(e, f, m, g.selectedTags);
    }
  }

  /** With an empty query and no selected tag every change is shown. */
  lemma {:induction false} NoFilterKeepsAllChanges(changes: seq<Change>, m: Matcher)
    ensures FilterChanges(changes, m, "", []) == changes
  {
    if |changes| > 0 {
      LibMatch.EmptyFiltersAdmitAll(changes[0]);
      ViewerMatch.EmptyFiltersAdmitAll(changes[0]);
      NoFilterKeepsAllChanges(changes[1..], m);
      assert changes == [changes[0]] + changes[1..];
    }
  }

  /** Filtering an already filtered changelog again with the same filters changes nothing. */
  lemma {:induction false} FilterIdempotent(changelog: seq<Entry>, f: Filters, m: Matcher)
    ensures FilteredChangelog(FilteredChangelog(changelog, f, m), f, m) == FilteredChangelog(changelog, f, m)
  {
    if |changelog| > 0 {
      FilterIdempotent(changelog[1..], f, m);
    }
  }

  /** The entries that have at least one change. */
  function NonEmptyEntries(changelog: seq<Entry>): (r: seq<Entry>)
    ensures forall e :: e in r ==> e in changelog && |e.changes| > 0
  {
    if |changelog| == 0 then []
    else
      var rest := NonEmptyEntries(changelog[1..]);
      if |changelog[0].changes| > 0 then [changelog[0]] + rest else rest
  }

  /** With no filter, every change matches, so only the entries without changes are dropped. */
  lemma {:induction false} NoFiltersKeepsNonEmpty(changelog: seq<Entry>, f: Filters, m: Matcher)
    requires !HasFilters(f)
    ensures FilteredChangelog(changelog, f, m) == NonEmptyEntries(changelog)
  {
    if |changelog| > 0 {
      var e := changelog[0];
      FilterChangesNonEmptyIff(e.changes, m, f.searchQuery, f.selectedTags);
      if |e.changes| > 0 {
        assert Matches(m, e.changes[0], f.searchQuery, f.selectedTags);
      }
      NoFiltersKeepsNonEmpty(changelog[1..], f, m);
    }
  }

  /** An entry dated exactly on either bound of the window passes the date clause. */
  lemma DateBoundsInclusive(e: Entry, from: int, to: int)
    ensures from <= e.date <= to <==> DateClause(e, Some(DateRange(Some(from), Some(to))))
  {
  }
}

=== FILE: expansion.dfy ===
/**
 * The expansion map: which versions are shown expanded. It changes by the
 * user's toggle and by the effect that runs whenever the filters or the
 * filtered list change.
 */
module Expansion {
  import opened Types

  type ExpansionMap = map<string, bool>

  /** `expandedEntries[v]` read as a flag: an absent key reads as collapsed. */
  predicate IsExpanded(m: ExpansionMap, v: string) {
    v in m && m[v]
  }

  /** `{...prev, [v]: !prev[v]}`: flips one version, every other key untouched. */
  function ToggleExpanded(m: ExpansionMap, v: string): (r: ExpansionMap)
    ensures r.Keys == m.Keys + {v}
    ensures IsExpanded(r, v) == !IsExpanded(m, v)
    ensures forall k :: k in m && k != v ==> r[k] == m[k]
  {
    m[v := !IsExpanded(m, v)]
  }

  /** Toggling twice restores every flag, and the map itself when the key was present. */
  lemma ToggleTwice(m: ExpansionMap, v: string)
    ensures forall k :: IsExpanded(ToggleExpanded(ToggleExpanded(m, v), v), k) == IsExpanded(m, k)
    ensures v in m ==> ToggleExpanded(ToggleExpanded(m, v), v) == m
  {
  }

  /** The versions of a list of entries, as a set. */
  function VersionSet(entries: seq<Entry>): (r: set<string>)
    ensures forall e :: e in entries ==> e.version in r
    ensures forall v :: v in r ==> exists e :: e in entries && e.version == v
  {
    if |entries| == 0 then {}
    else
      assert entries == [entries[0]] + entries[1..];
      {entries[0].version} + VersionSet(entries[1..])
  }

  /**
   * The `forEach` of the effect: for each filtered entry whose version `prev`
   * does not hold as expanded, write true into `copy`. The test reads `prev`,
   * the write goes to `copy`.
   */
  function ExpandEach(prev: ExpansionMap, copy: ExpansionMap, entries: seq<Entry>): (r: ExpansionMap)
    requires forall k :: IsExpanded(prev, k) ==> IsExpanded(copy, k)
    ensures r.Keys == copy.Keys + VersionSet(entries)
    ensures forall k :: k in VersionSet(entries) ==> IsExpanded(r, k)
    ensures forall k :: k in copy && k !in VersionSet(entries) ==> r[k] == copy[k]
    ensures forall k :: IsExpanded(copy, k) ==> IsExpanded(r, k)
    decreases |entries|
  {
    if |entries| == 0 then copy
    else
      var v := entries[0].version;
      var next := if !(v in prev) || !prev[v] then copy[v := true] else copy;
      assert IsExpanded(prev, v) ==> IsExpanded(copy, v);
      assert v in next && next.Keys == copy.Keys + {v};
      assert forall k :: IsExpanded(copy, k) ==> IsExpanded(next, k);
      assert VersionSet(entries) == {v} + VersionSet(entries[1..]);
      ExpandEach(prev, next, entries[1..])
  }

  /**
   * The effect: with some filter active and a non-empty filtered list, every
   * filtered version becomes expanded and nothing is collapsed; otherwise the
   * map is emptied.
   */
  function ExpansionEffect(prev: ExpansionMap, hasFilters: bool, filtered: seq<Entry>): (r: ExpansionMap)
    ensures !(hasFilters && |filtered| > 0) ==> r == map[]
    ensures hasFilters && |filtered| > 0 ==> r.Keys == prev.Keys + VersionSet(filtered)
    ensures hasFilters && |filtered| > 0 ==> forall e :: e in filtered ==> IsExpanded(r, e.version)
    ensures hasFilters && |filtered| > 0 ==> forall k :: k in prev && k !in VersionSet(filtered) ==> r[k] == prev[k]
    ensures hasFilters && |filtered| > 0 ==> forall k :: IsExpanded(prev, k) ==> IsExpanded(r, k)
  {
    if hasFilters && |filtered| > 0 then ExpandEach(prev, prev, filtered) else map[]
  }

  /** Running the effect again on its own result, with the same inputs, changes nothing. */
  lemma EffectIdempotent(prev: ExpansionMap, hasFilters: bool, filtered: seq<Entry>)
    ensures ExpansionEffect(ExpansionEffect(prev, hasFilters, filtered), hasFilters, filtered)
         == ExpansionEffect(prev, hasFilters, filtered)
  {
  }
}

=== FILE: filter_state.dfy ===
/**
 * The filter inputs of the list views and the transitions the UI applies to
 * them: add and remove a selected tag, clear everything, and the
 * `hasFilters` test. The entry view's own unconditional tag selection is
 * here too.
 */
module FilterState {
  import opened Wrappers
  import opened Seqs

  /** A date window; either end may be unset. */
  datatype DateRange = DateRange(from: Option<int>, to: Option<int>)

  /** `selectedVersion` is "" or "all" when no version is chosen; `dateRange` is None when undefined. */
  datatype Filters = Filters(
    searchQuery: string,
    selectedTags: seq<string>,
    selectedVersion: string,
    dateRange: Option<DateRange>)

  /** The version selection places no restriction. */
  predicate AnyVersion(v: string) {
    v == "" || v == "all"
  }

  predicate HasFilters(f: Filters) {
    || |f.searchQuery| > 0
    || |f.selectedTags| > 0
    || !AnyVersion(f.selectedVersion)
    || f.dateRange.Some?
  }

  const Cleared: Filters := Filters("", [], "", None)

  /** All four filter inputs reset in one update. */
  function ClearFilters(f: Filters): (r: Filters)
    ensures !HasFilters(r)
    ensures r.searchQuery == "" && r.selectedTags == [] && r.dateRange == None
  {
    Cleared
  }

  /**
   * The states without filters are exactly the cleared state and the cleared
   * state with "all" chosen in the version selector.
   */
  lemma NoFiltersIsCleared(f: Filters)
    ensures !HasFilters(f) <==> f == Cleared || f == Cleared.(selectedVersion := "all")
  {
  }

  /** `selected.filter((t) => t !== tag)`: every occurrence of `tag` goes, the rest stay in order. */
  function RemoveAll(selected: seq<string>, tag: string): (r: seq<string>)
    ensures tag !in r
    ensures forall t :: t in r <==> t in selected && t != tag
    ensures |r| <= |selected|
  {
    if |selected| == 0 then []
    else
      assert selected == [selected[0]] + selected[1..];
      if selected[0] != tag then [selected[0]] + RemoveAll(selected[1..], tag)
      else RemoveAll(selected[1..], tag)
  }

  /** Removal is order-preserving: the result embeds into the input at the positions not holding `tag`. */
  lemma {:induction false} RemoveAllKeepsOrder(selected: seq<string>, tag: string)
    ensures exists idx :: && Embeds(idx, RemoveAll(selected, tag), selected)
                          && forall i :: 0 <= i < |selected| ==> (i in idx <==> selected[i] != tag)
  {
    var r := RemoveAll(selected, tag);
    if |selected| == 0 {
      assert Embeds([], r, selected);
    } else {
      var tail := selected[1..];
      RemoveAllKeepsOrder(tail, tag);
      var rest :| && Embeds(rest, RemoveAll(tail, tag), tail)
                  && forall i :: 0 <= i < |tail| ==> (i in rest <==> tail[i] != tag);
      var idx;
      if selected[0] != tag {
        EmbedsTake(rest, RemoveAll(tail, tag), selected);
        idx := [0] + Shift(rest);
      } else {
        EmbedsSkip(rest, RemoveAll(tail, tag), selected);
        idx := Shift(rest);
      }
      forall i | 0 < i < |selected|
        ensures i in idx <==> selected[i] != tag
      {
        assert tail[i - 1] == selected[i];
      }
      assert Embeds(idx, r, selected);
    }
  }

  /** Removing a tag that is not selected changes nothing. */
  lemma {:induction false} RemoveAbsentIsIdentity(selected: seq<string>, tag: string)
    requires tag !in selected
    ensures RemoveAll(selected, tag) == selected
  {
    if |selected| > 0 {
      RemoveAbsentIsIdentity(selected[1..], tag);
    }
  }

  /** The list-view `addTagFilter`: append `tag` unless it is already selected. */
  function AddIfAbsent(selected: seq<string>, tag: string): (r: seq<string>)
    ensures tag in r
    ensures forall t :: t in r <==> t in selected || t == tag
    ensures NoDup(selected) ==> NoDup(r)
    ensures |r| == if tag in selected then |selected| else |selected| + 1
    ensures |selected| <= |r| && r[..|selected|] == selected
  {
    if tag in selected then selected else selected + [tag]
  }

  /** Adding a tag that was not selected and then removing it restores the selection. */
  lemma AddThenRemove(selected: seq<string>, tag: string)
    requires tag !in selected
    ensures RemoveAll(AddIfAbsent(selected, tag), tag) == selected
  {
    RemoveAllAppend(selected, tag);
    RemoveAbsentIsIdentity(selected, tag);
  }

  lemma {:induction false} RemoveAllAppend(selected: seq<string>, tag: string)
    ensures RemoveAll(selected + [tag], tag) == RemoveAll(selected, tag)
  {
    if |selected| == 0 {
      assert [] + [tag] == [tag];
    } else {
      assert (selected + [tag])[1..] == selected[1..] + [tag];
      RemoveAllAppend(selected[1..], tag);
    }
  }

  /** Selecting a tag on the list page: afterwards the tag is selected and a filter is active. */
  function AddTagFilter(f: Filters, tag: string): (r: Filters)
    ensures r.selectedTags == AddIfAbsent(f.selectedTags, tag)
    ensures r == f.(selectedTags := r.selectedTags)
    ensures tag in r.selectedTags && HasFilters(r)
    ensures forall t :: t in f.selectedTags ==> t in r.selectedTags
  {
    f.(selectedTags := AddIfAbsent(f.selectedTags, tag))
  }

  /**
   * Deselecting a tag on the list page: afterwards the tag is not selected, and
   * no other tag has been added.
   */
  function RemoveTagFilter(f: Filters, tag: string): (r: Filters)
    ensures r.selectedTags == RemoveAll(f.selectedTags, tag)
    ensures r == f.(selectedTags := r.selectedTags)
    ensures tag !in r.selectedTags
    ensures forall t :: t in r.selectedTags ==> t in f.selectedTags
  {
    f.(selectedTags := RemoveAll(f.selectedTags, tag))
  }

  /** The entry view's tag selection: appended unconditionally, so repeats are possible. */
  function SelectTag(selected: seq<string>, tag: string): (r: seq<string>)
    ensures |r| == |selected| + 1 && r[..|selected|] == selected && r[|selected|] == tag
  {
    selected + [tag]
  }

  /** Selecting an already selected tag keeps the same set of selected tags. */
  lemma SelectTagSameSet(selected: seq<string>, tag: string)
    requires tag in selected
    ensures forall t :: t in SelectTag(selected, tag) <==> t in selected
  {
  }
}

=== FILE: lib_match.dfy ===
/**
 * `matchChange` of lib/utils.ts, used by the list view and the entry view.
 * The search clause looks at the title without regard to case and at the
 * commits and tags case-sensitively; description and impact are not searched.
 */
module LibMatch {
  import opened Text
  import opened Types
  import opened Clauses

  predicate SearchClause(c: Change, q: string) {
    || q == ""
    || Includes(Lower(c.title), Lower(q))
    || SomeIncludes(c.commits, q)
    || SomeIncludes(c.tags, q)
  }

  predicate MatchChange(c: Change, q: string, selected: seq<string>) {
    SearchClause(c, q) && TagClause(c, selected)
  }

  /** The predicate in terms of substring occurrence and tag membership. */
  lemma MatchChangeIff(c: Change, q: string, selected: seq<string>)
    ensures MatchChange(c, q, selected) <==>
      && (|| q == ""
          || Occurs(Lower(c.title), Lower(q))
          || (exists k :: 0 <= k < |c.commits| && Occurs(c.commits[k], q))
          || (exists k :: 0 <= k < |c.tags| && Occurs(c.tags[k], q)))
      && (forall t :: t in selected ==> t in c.tags)
  {
    IncludesIffOccurs(Lower(c.title), Lower(q));
    SomeIncludesIff(c.commits, q);
    SomeIncludesIff(c.tags, q);
    TagClauseIff(c, selected);
  }

  /** With no query and no selected tag every change matches. */
  lemma EmptyFiltersAdmitAll(c: Change)
    ensures MatchChange(c, "", [])
  {
  }

  /** With no query the predicate is the conjunction of the selected tags. */
  lemma EmptyQueryIsTagConjunction(c: Change, selected: seq<string>)
    ensures MatchChange(c, "", selected) <==> forall t :: t in selected ==> t in c.tags
  {
    TagClauseIff(c, selected);
  }

  /** Selecting one more tag can turn a match into a miss, never a miss into a match. */
  lemma SelectingTagNarrows(c: Change, q: string, selected: seq<string>, t: string)
    ensures MatchChange(c, q, selected + [t]) <==> MatchChange(c, q, selected) && t in c.tags
  {
    TagClauseExtend(c, selected, t);
  }

  /** Order and duplication of the selected tags never change the outcome. */
  lemma SelectionSetSuffices(c: Change, q: string, s1: seq<string>, s2: seq<string>)
    requires forall t :: t in s1 <==> t in s2
    ensures MatchChange(c, q, s1) == MatchChange(c, q, s2)
  {
    TagClauseDependsOnSetOnly(c, s1, s2);
  }

  /** A case-insensitive hit in the title satisfies the search clause. */
  lemma TitleHitSuffices(c: Change, q: string)
    requires Occurs(Lower(c.title), Lower(q))
    ensures SearchClause(c, q)
  {
    IncludesIffOccurs(Lower(c.title), Lower(q));
  }

  /** Description and impact are never consulted. */
  lemma DescriptionAndImpactIgnored(c: Change, q: string, selected: seq<string>, d: string, i: string)
    ensures MatchChange(c.(description := d, impact := i), q, selected) == MatchChange(c, q, selected)
  {
  }

  /**
   * A query that occurs only in description or impact, and in no lowered
   * title, commit or tag, fails the search clause.
   */
  lemma DescriptionOnlyHitFails(c: Change, q: string)
    requires q != ""
    requires !Occurs(Lower(c.title), Lower(q))
    requires forall k :: 0 <= k < |c.commits| ==> !Occurs(c.commits[k], q)
    requires forall k :: 0 <= k < |c.tags| ==> !Occurs(c.tags[k], q)
    ensures !SearchClause(c, q)
  {
    MatchChangeIff(c, q, []);
  }

  /**
   * Case sensitivity of commit search: a title hit ignores case, a commit hit
   * does not, so "abc" misses the commit ABC123 while "ABC" finds it.
   */
  lemma CommitSearchIsCaseSensitive()
    ensures MatchChange(Change("1", "Fix Bug", "", "", [], []), "fix", [])
    ensures !MatchChange(Change("2", "", "", "", ["ABC123"], []), "abc", [])
    ensures MatchChange(Change("2", "", "", "", ["ABC123"], []), "ABC", [])
  {
  }
}

=== FILE: lookups.dfy ===
/**
 * Deep-link lookups: the entry for a version (`changelog.find`) and, inside
 * it, the change for an id, with the not-found outcome the change page shows.
 */
module Lookups {
  import opened Wrappers
  import opened Types
  import Aggregates

  /** Position of the first entry carrying `version`. */
  function EntryIndex(changelog: seq<Entry>, version: string): (r: Option<nat>)
    ensures r.Some? ==> r.value < |changelog| && changelog[r.value].version == version
    ensures r.Some? ==> forall j :: 0 <= j < r.value ==> changelog[j].version != version
    ensures r.None? <==> forall j :: 0 <= j < |changelog| ==> changelog[j].version != version
  {
    if |changelog| == 0 then None
    else if changelog[0].version == version then Some(0)
    else
      match EntryIndex(changelog[1..], version)
      case None => None
      case Some(i) => Some(i + 1)
  }

  /** `changelog.find((entry) => entry.version === version)`. */
  function FindEntry(changelog: seq<Entry>, version: string): (r: Option<Entry>)
    ensures r.None? <==> forall e :: e in changelog ==> e.version != version
    ensures r.Some? ==> r.value.version == version && r.value in changelog
    ensures r.Some? ==> exists i :: 0 <= i < |changelog| && changelog[i] == r.value
                                 && forall j :: 0 <= j < i ==> changelog[j].version != version
  {
    match EntryIndex(changelog, version)
    case None => None
    case Some(i) => Some(changelog[i])
  }

  /** A version can be looked up exactly when it is in the version list. */
  lemma FindEntryIffListed(changelog: seq<Entry>, version: string)
    ensures FindEntry(changelog, version).Some? <==> version in Aggregates.AllVersions(changelog)
  {
  }

  /** Position of the first change carrying `id`: the same find-first search as `EntryIndex`, on ids. */
  function ChangeIndex(changes: seq<Change>, id: string): (r: Option<nat>)
    ensures r.Some? ==> r.value < |changes| && changes[r.value].id == id
    ensures r.Some? ==> forall j :: 0 <= j < r.value ==> changes[j].id != id
    ensures r.None? <==> forall j :: 0 <= j < |changes| ==> changes[j].id != id
  {
    if |changes| == 0 then None
    else if changes[0].id == id then Some(0)
    else
      match ChangeIndex(changes[1..], id)
      case None => None
      case Some(i) => Some(i + 1)
  }

  /** What the change page shows: the change with its entry, or a message naming both identifiers. */
  datatype ChangeLookup =
    | Found(entry: Entry, change: Change)
    | NotFound(id: string, version: string)

  /** The first entry with the version is the only one searched for the id. */
  predicate FirstEntryHasChange(changelog: seq<Entry>, version: string, id: string) {
    match EntryIndex(changelog, version)
    case None => false
    case Some(i) => exists k :: 0 <= k < |changelog[i].changes| && changelog[i].changes[k].id == id
  }

  function LookupChange(changelog: seq<Entry>, version: string, id: string): (r: ChangeLookup)
    ensures r.Found? <==> FirstEntryHasChange(changelog, version, id)
    ensures r.Found? ==> Some(r.entry) == FindEntry(changelog, version)
    ensures r.Found? ==> r.change.id == id && r.entry.version == version
    ensures r.Found? ==> exists k :: 0 <= k < |r.entry.changes| && r.entry.changes[k] == r.change
                                  && forall j :: 0 <= j < k ==> r.entry.changes[j].id != id
    ensures r.NotFound? ==> r.id == id && r.version == version
  {
    match FindEntry(changelog, version)
    case None => NotFound(id, version)
    case Some(entry) =>
      match ChangeIndex(entry.changes, id)
      case None => NotFound(id, version)
      case Some(k) => Found(entry, entry.changes[k])
  }

  /**
   * A later entry that repeats the version is never searched: here the id
   * lives only in the second "1.0" entry, and the lookup reports not found.
   */
  lemma DuplicateVersionShadowed()
    ensures var c := Change("fix-1", "", "", "", [], []);
      LookupChange([Entry("1.0", 0, "", "", []), Entry("1.0", 1, "", "", [c])], "1.0", "fix-1")
        == NotFound("fix-1", "1.0")
  {
  }
}

=== FILE: ordering.dfy ===
/**
 * The order `Array.prototype.sort` uses when given no comparator: strings
 * compared character by character, a proper prefix first. Characters are
 * compared by code point.
 */
module Ordering {
  import opened Seqs

  /** `a` sorts strictly before `b`. */
  predicate Below(a: string, b: string)
    decreases |a|
  {
    if |a| == 0 then |b| > 0
    else |b| > 0 && (a[0] < b[0] || (a[0] == b[0] && Below(a[1..], b[1..])))
  }

  lemma {:induction false} BelowIrreflexive(a: string)
    ensures !Below(a, a)
    decreases |a|
  {
    if |a| > 0 {
      BelowIrreflexive(a[1..]);
    }
  }

  lemma {:induction false} BelowTransitive(a: string, b: string, c: string)
    requires Below(a, b) && Below(b, c)
    ensures Below(a, c)
    decreases |a|
  {
    if |a| > 0 && a[0] == b[0] && b[0] == c[0] {
      BelowTransitive(a[1..], b[1..], c[1..]);
    }
  }

  /** Two different strings are always ordered one way or the other. */
  lemma {:induction false} BelowTotal(a: string, b: string)
    requires a != b
    ensures Below(a, b) || Below(b, a)
    decreases |a|
  {
    if |a| > 0 && |b| > 0 && a[0] == b[0] {
      assert a == [a[0]] + a[1..] && b == [b[0]] + b[1..];
      BelowTotal(a[1..], b[1..]);
    }
  }

  predicate StrictlySorted(xs: seq<string>) {
    forall i, j :: 0 <= i < j < |xs| ==> Below(xs[i], xs[j])
  }

  /** Places a new string into a strictly sorted list. */
  function Insert(xs: seq<string>, x: string): (r: seq<string>)
    requires StrictlySorted(xs) && x !in xs
    ensures StrictlySorted(r)
    ensures |r| == |xs| + 1
    ensures forall y :: y in r <==> y in xs || y == x
  {
    if |xs| == 0 then [x]
    else if Below(x, xs[0]) then
      assert forall j :: 0 < j < |xs| ==> Below(x, xs[j]) by {
        forall j | 0 < j < |xs| ensures Below(x, xs[j]) {
          BelowTransitive(x, xs[0], xs[j]);
        }
      }
      [x] + xs
    else
      BelowTotal(x, xs[0]);
      var rest := Insert(xs[1..], x);
      assert forall y :: y in xs <==> y == xs[0] || y in xs[1..] by {
        assert xs == [xs[0]] + xs[1..];
      }
      assert forall k :: 0 <= k < |rest| ==> Below(xs[0], rest[k]) by {
        forall k | 0 <= k < |rest| ensures Below(xs[0], rest[k]) {
          if rest[k] != x {
            assert rest[k] in rest;
            assert rest[k] in xs[1..];
            var j :| 0 <= j < |xs[1..]| && xs[1..][j] == rest[k];
            assert xs[j + 1] == rest[k];
          }
        }
      }
      var r := [xs[0]] + rest;
      assert forall i, j :: 0 < i < j < |r| ==> r[i] == rest[i - 1] && r[j] == rest[j - 1];
      r
  }

  /** Sorts a duplicate-free list of strings into strictly increasing order. */
  function Sort(xs: seq<string>): (r: seq<string>)
    requires NoDup(xs)
    ensures StrictlySorted(r)
    ensures |r| == |xs|
    ensures forall y :: y in r <==> y in xs
  {
    if |xs| == 0 then []
    else
      assert forall y :: y in xs <==> y == xs[0] || y in xs[1..] by {
        assert xs == [xs[0]] + xs[1..];
      }
      Insert(Sort(xs[1..]), xs[0])
  }

  /** The head of a strictly sorted list sorts before every other element. */
  lemma HeadIsLeast(a: seq<string>, y: string)
    requires StrictlySorted(a) && |a| > 0 && y in a && y != a[0]
    ensures Below(a[0], y)
  {
  }

  /**
   * A strictly sorted list is fixed by its elements: two of them holding the
   * same strings are equal, whatever order the strings were gathered in.
   */
  lemma {:induction false} SortedUnique(a: seq<string>, b: seq<string>)
    requires StrictlySorted(a) && StrictlySorted(b)
    requires forall y :: y in a <==> y in b
    ensures a == b
    decreases |a|
  {
    assert |a| > 0 ==> a[0] in b;
    assert |b| > 0 ==> b[0] in a;
    if |a| > 0 && |b| > 0 {
      if a[0] != b[0] {
        HeadIsLeast(a, b[0]);
        HeadIsLeast(b, a[0]);
        BelowTransitive(a[0], b[0], a[0]);
        BelowIrreflexive(a[0]);
      }
      assert a == [a[0]] + a[1..] && b == [b[0]] + b[1..];
      forall y ensures y in a[1..] <==> y in b[1..] {
        if y in a[1..] {
          var i :| 0 <= i < |a[1..]| && a[1..][i] == y;
          assert Below(a[0], a[i + 1]);
          BelowIrreflexive(y);
          assert y in b && y != b[0];
        }
        if y in b[1..] {
          var i :| 0 <= i < |b[1..]| && b[1..][i] == y;
          assert Below(b[0], b[i + 1]);
          BelowIrreflexive(y);
          assert y in a && y != a[0];
        }
      }
      SortedUnique(a[1..], b[1..]);
    }
  }
}

=== FILE: seqs.dfy ===
/**
 * Sequence vocabulary shared by the filters and aggregates: duplicate
 * freedom, order-preserving selection of positions, and the
 * first-occurrence deduplication that `Array.from(new Set(xs))` performs.
 */
module Seqs {

  predicate NoDup<T(==)>(xs: seq<T>) {
    forall i, j :: 0 <= i < j < |xs| ==> xs[i] != xs[j]
  }

  ghost predicate Increasing(idx: seq<int>) {
    forall k, l :: 0 <= k < l < |idx| ==> idx[k] < idx[l]
  }

  /**
   * `r` is read off `xs` at the positions `idx`, in increasing order: `r` is an
   * order-preserving subsequence of `xs` and `idx` says which elements it kept.
   */
  ghost predicate Embeds<T>(idx: seq<int>, r: seq<T>, xs: seq<T>) {
    && |idx| == |r|
    && Increasing(idx)
    && forall k :: 0 <= k < |idx| ==> 0 <= idx[k] < |xs| && r[k] == xs[idx[k]]
  }

  function Shift(idx: seq<int>): (r: seq<int>)
    ensures |r| == |idx|
    ensures forall k :: 0 <= k < |idx| ==> r[k] == idx[k] + 1
  {
    seq(|idx|, k requires 0 <= k < |idx| => idx[k] + 1)
  }

  /** Dropping the head of `xs`: an embedding into the tail is one into `xs`, one position later. */
  lemma EmbedsSkip<T>(idx: seq<int>, r: seq<T>, xs: seq<T>)
    requires |xs| > 0 && Embeds(idx, r, xs[1..])
    ensures Embeds(Shift(idx), r, xs)
    ensures forall i :: 0 < i < |xs| ==> (i in Shift(idx) <==> i - 1 in idx)
    ensures 0 !in Shift(idx)
  {
  }

  /** Keeping the head of `xs`: position 0 goes in front of the shifted tail embedding. */
  lemma EmbedsTake<T>(idx: seq<int>, r: seq<T>, xs: seq<T>)
    requires |xs| > 0 && Embeds(idx, r, xs[1..])
    ensures Embeds([0] + Shift(idx), [xs[0]] + r, xs)
    ensures forall i :: 0 < i < |xs| ==> (i in [0] + Shift(idx) <==> i - 1 in idx)
    ensures 0 in [0] + Shift(idx)
  {
  }

  /** Index of the first occurrence of `x`, the position `indexOf` reports. */
  function FirstIndex<T(==)>(xs: seq<T>, x: T): (i: nat)
    requires x in xs
    ensures i < |xs|
    ensures xs[i] == x
    ensures x !in xs[..i]
  {
    if xs[0] == x then 0
    else
      assert x in xs[1..];
      var j := FirstIndex(xs[1..], x);
      assert xs[..j + 1] == [xs[0]] + xs[1..][..j];
      j + 1
  }

  /** The position of a first occurrence is determined by the occurrence property alone. */
  lemma FirstIndexUnique<T>(xs: seq<T>, x: T, i: nat)
    requires i < |xs| && xs[i] == x && x !in xs[..i]
    ensures FirstIndex(xs, x) == i
  {
  }

  /** A prefix does not move the first occurrence of anything it contains. */
  lemma FirstIndexPrefix<T>(xs: seq<T>, n: nat, x: T)
    requires n <= |xs| && x in xs[..n]
    ensures FirstIndex(xs, x) == FirstIndex(xs[..n], x)
  {
    var i := FirstIndex(xs[..n], x);
    assert xs[..i] == xs[..n][..i];
    FirstIndexUnique(xs, x, i);
  }

  /**
   * `Array.from(new Set(xs))`: each element once, in the order of its first
   * occurrence. Built the way the set is filled, one element at a time from
   * the left, appending only what has not been seen.
   */
  function Dedup<T(==,!new)>(xs: seq<T>): (r: seq<T>)
    ensures NoDup(r)
    ensures forall x :: x in r <==> x in xs
    ensures |r| <= |xs|
  {
    if |xs| == 0 then []
    else
      var init := xs[..|xs| - 1];
      var last := xs[|xs| - 1];
      assert xs == init + [last];
      var d := Dedup(init);
      if last in d then d else d + [last]
  }

  /** The deduplicated list is ordered by first occurrence in the input. */
  lemma {:induction false} DedupFirstOccurrenceOrder<T(!new)>(xs: seq<T>)
    ensures forall i, j :: 0 <= i < j < |Dedup(xs)| ==>
      FirstIndex(xs, Dedup(xs)[i]) < FirstIndex(xs, Dedup(xs)[j])
    decreases |xs|
  {
    if |xs| > 0 {
      var n := |xs| - 1;
      var init := xs[..n];
      var last := xs[n];
      var d := Dedup(init);
      var r := Dedup(xs);
      DedupFirstOccurrenceOrder(init);
      forall y | y in d
        ensures FirstIndex(xs, y) == FirstIndex(init, y) < n
      {
        FirstIndexPrefix(xs, n, y);
      }
      if last !in d {
        assert last !in xs[..n];
        FirstIndexUnique(xs, last, n);
      }
      forall i, j | 0 <= i < j < |r|
        ensures FirstIndex(xs, r[i]) < FirstIndex(xs, r[j])
      {
        assert r[i] == d[i];
        if j < |d| {
          assert r[j] == d[j];
        }
      }
    }
  }
}

=== FILE: text.dfy ===
/**
 * String primitives the predicates are built from: lowering (the model's
 * `toLowerCase`) and substring search (`includes`).
 */
module Text {

  /** ASCII lowering of one character; every other character is left alone. */
  function LowerChar(c: char): char {
    if 'A' <= c <= 'Z' then (c as int - 'A' as int + 'a' as int) as char else c
  }

  /** Lowers every character of `s`, keeping its length and positions. */
  function Lower(s: string): (r: string)
    ensures |r| == |s|
    ensures forall i :: 0 <= i < |s| ==> r[i] == LowerChar(s[i])
  {
    if s == [] then [] else [LowerChar(s[0])] + Lower(s[1..])
  }

  predicate StartsWith(s: string, prefix: string) {
    |prefix| <= |s| && s[..|prefix|] == prefix
  }

  /**
   * `hay.includes(needle)`, computed by trying every offset from the left.
   * The empty needle is included in every string, the empty one too.
   */
  predicate Includes(hay: string, needle: string)
    decreases |hay|
  {
    StartsWith(hay, needle) || (|hay| > 0 && Includes(hay[1..], needle))
  }

  /** Reference meaning of substring: `needle` sits in `hay` at offset `i`. */
  ghost predicate OccursAt(hay: string, needle: string, i: int) {
    0 <= i && i + |needle| <= |hay| && hay[i..i + |needle|] == needle
  }

  ghost predicate Occurs(hay: string, needle: string) {
    exists i :: OccursAt(hay, needle, i)
  }

  /** The left-to-right search finds the needle exactly when it occurs at some offset. */
  lemma {:induction false} IncludesIffOccurs(hay: string, needle: string)
    ensures Includes(hay, needle) <==> Occurs(hay, needle)
    decreases |hay|
  {
    if StartsWith(hay, needle) {
      assert OccursAt(hay, needle, 0);
    } else if |hay| == 0 {
      assert forall i :: !OccursAt(hay, needle, i);
    } else {
      var tail := hay[1..];
      IncludesIffOccurs(tail, needle);
      if Includes(tail, needle) {
        var i :| OccursAt(tail, needle, i);
        assert hay[i + 1..i + 1 + |needle|] == tail[i..i + |needle|];
        assert OccursAt(hay, needle, i + 1);
      }
      if Occurs(hay, needle) {
        var i :| OccursAt(hay, needle, i);
        assert i != 0;
        assert tail[i - 1..i - 1 + |needle|] == hay[i..i + |needle|];
        assert OccursAt(tail, needle, i - 1);
      }
    }
  }
}

=== FILE: types.dfy ===
/**
 * The changelog document: a file holds ordered entries, an entry holds
 * ordered changes. Dates are kept as the integer timestamps that parsing the
 * ISO-8601 text produces, so every comparison on dates is a comparison on ints.
 */
module Types {

  /** One atomic modification described inside an entry. */
  datatype Change = Change(
    id: string,
    title: string,
    description: string,
    impact: string,
    commits: seq<string>,
    tags: seq<string>)

  /** One released version and its changes; `date` is the parsed timestamp. */
  datatype Entry = Entry(
    version: string,
    date: int,
    fromRef: string,
    toRef: string,
    changes: seq<Change>)

  /** The wrapped document shape: metadata plus the entry list. */
  datatype ChangelogFile = ChangelogFile(
    title: string,
    description: string,
    repository: string,
    entries: seq<Entry>)
}

=== FILE: viewer_match.dfy ===
/**
 * The `matchChange` closure of components/changelog-viewer.tsx. It searches
 * title, description and impact without regard to case and commits
 * case-sensitively; unlike lib/utils.ts it does not search tags. The
 * selected-tag clause is the same conjunction.
 */
module ViewerMatch {
  import opened Text
  import opened Types
  import opened Clauses
  import LibMatch

  predicate SearchClause(c: Change, q: string) {
    || q == ""
    || Includes(Lower(c.title), Lower(q))
    || Includes(Lower(c.description), Lower(q))
    || Includes(Lower(c.impact), Lower(q))
    || SomeIncludes(c.commits, q)
  }

  predicate MatchChange(c: Change, q: string, selected: seq<string>) {
    SearchClause(c, q) && TagClause(c, selected)
  }

  /** The search clause in terms of substring occurrence; tags play no part in it. */
  lemma SearchClauseIff(c: Change, q: string)
    ensures SearchClause(c, q) <==>
      || q == ""
      || Occurs(Lower(c.title), Lower(q))
      || Occurs(Lower(c.description), Lower(q))
      || Occurs(Lower(c.impact), Lower(q))
      || (exists k :: 0 <= k < |c.commits| && Occurs(c.commits[k], q))
  {
    IncludesIffOccurs(Lower(c.title), Lower(q));
    IncludesIffOccurs(Lower(c.description), Lower(q));
    IncludesIffOccurs(Lower(c.impact), Lower(q));
    SomeIncludesIff(c.commits, q);
  }

  /** The whole predicate: the search clause above and every selected tag carried. */
  lemma MatchChangeIff(c: Change, q: string, selected: seq<string>)
    ensures MatchChange(c, q, selected) <==>
      SearchClause(c, q) && forall t :: t in selected ==> t in c.tags
  {
    TagClauseIff(c, selected);
  }

  /** With no tag selected, the change's tags cannot influence the outcome. */
  lemma TagsNotSearched(c: Change, q: string, tags: seq<string>)
    ensures MatchChange(c.(tags := tags), q, []) == MatchChange(c, q, [])
  {
  }

  /** With no query and no selected tag every change matches. */
  lemma EmptyFiltersAdmitAll(c: Change)
    ensures MatchChange(c, "", [])
  {
  }

  /** Order and duplication of the selected tags never change the outcome. */
  lemma SelectionSetSuffices(c: Change, q: string, s1: seq<string>, s2: seq<string>)
    requires forall t :: t in s1 <==> t in s2
    ensures MatchChange(c, q, s1) == MatchChange(c, q, s2)
  {
    TagClauseDependsOnSetOnly(c, s1, s2);
  }

  /**
   * The two variants agree whenever the query hits neither description, impact
   * nor any tag: those are the only fields on which their search clauses differ.
   */
  lemma AgreesWithLibOutsideDifferingFields(c: Change, q: string, selected: seq<string>)
    requires !Occurs(Lower(c.description), Lower(q))
    requires !Occurs(Lower(c.impact), Lower(q))
    requires forall k :: 0 <= k < |c.tags| ==> !Occurs(c.tags[k], q)
    ensures MatchChange(c, q, selected) == LibMatch.MatchChange(c, q, selected)
  {
    IncludesIffOccurs(Lower(c.description), Lower(q));
    IncludesIffOccurs(Lower(c.impact), Lower(q));
    SomeIncludesIff(c.tags, q);
  }

  /**
   * The variants really differ: a query found only in a tag matches under the
   * library predicate and not here; one found only in the description matches
   * here and not under the library predicate.
   */
  lemma VariantsDiffer()
    ensures var c := Change("1", "", "", "", [], ["ui"]);
      LibMatch.MatchChange(c, "ui", []) && !MatchChange(c, "ui", [])
    ensures var c := Change("2", "", "crash", "", [], []);
      MatchChange(c, "crash", []) && !LibMatch.MatchChange(c, "crash", [])
  {
  }
}

=== FILE: views.dfy ===
/**
 * The three pages: the list page (cards for the filtered entries), the
 * entry page (one version, its tags and its filtered changes) and the change
 * page, and the choice between them from the `version` and `id` parameters.
 *
 * The entry page is modelled on the list of entries, which is what the list
 * page hands it. Its declared prop type is the wrapped file, and as written it
 * reads `.entries` from whatever it is given; `EntryViewAsWritten` models that.
 */
module Views {
  import opened Wrappers
  import opened Types
  import opened Seqs
  import opened FilterState
  import opened EntryFilter
  import opened Lookups
  import opened Expansion
  import Aggregates
  import LibMatch

  // ---------------------------------------------------------------- list page

  /** One rendered card: an entry and the changes shown under it. */
  datatype Card = Card(entry: Entry, changes: seq<Change>)

  /**
   * The list page's `filteredChangelog.map(...)`: each entry's changes are
   * filtered again and an entry whose filtered changes are empty renders
   * nothing.
   */
  function Cards(filtered: seq<Entry>, m: Matcher, q: string, selected: seq<string>): seq<Card> {
    if |filtered| == 0 then []
    else
      var shown := FilterChanges(filtered[0].changes, m, q, selected);
      var rest := Cards(filtered[1..], m, q, selected);
      if |shown| == 0 then rest else [Card(filtered[0], shown)] + rest
  }

  /**
   * Every entry the filter keeps gets its card: the branch that renders nothing
   * is never taken, and each card shows a non-empty list of matching changes.
   */
  lemma {:induction false} CardsCoverFiltered(changelog: seq<Entry>, f: Filters, m: Matcher)
    ensures var filtered := FilteredChangelog(changelog, f, m);
      var cards := Cards(filtered, m, f.searchQuery, f.selectedTags);
      && |cards| == |filtered|
      && forall i :: 0 <= i < |cards| ==>
           && cards[i].entry == filtered[i]
           && cards[i].changes == FilterChanges(filtered[i].changes, m, f.searchQuery, f.selectedTags)
           && |cards[i].changes| > 0
  {
    if |changelog| > 0 {
      CardsCoverFiltered(changelog[1..], f, m);
    }
  }

  // ---------------------------------------------------------------- entry page

  /** The entry page's `allTags`: each tag once, in first-seen order, none when the version is absent. */
  function EntryTags(changelog: seq<Entry>, version: string): (r: seq<string>)
    ensures NoDup(r)
    ensures FindEntry(changelog, version).None? ==> r == []
    ensures FindEntry(changelog, version).Some? ==>
      forall t :: t in r <==> Aggregates.TagInChanges(FindEntry(changelog, version).value.changes, t)
  {
    match FindEntry(changelog, version)
    case None => []
    case Some(e) =>
      Aggregates.ChangeTagsMembers(e.changes);
      Dedup(Aggregates.ChangeTags(e.changes))
  }

  /** The entry tags keep the order in which the changes first mention them; they are not sorted. */
  lemma EntryTagsFirstSeenOrder(changelog: seq<Entry>, version: string, e: Entry)
    requires FindEntry(changelog, version) == Some(e)
    ensures var tags := EntryTags(changelog, version);
      var all := Aggregates.ChangeTags(e.changes);
      forall i, j :: 0 <= i < j < |tags| ==> FirstIndex(all, tags[i]) < FirstIndex(all, tags[j])
  {
    DedupFirstOccurrenceOrder(Aggregates.ChangeTags(e.changes));
  }

  /**
   * The entry page's `filteredChanges`: the changes of the version's first entry
   * at exactly the positions the library predicate accepts, in order; none when
   * no entry has the version.
   */
  function EntryFilteredChanges(changelog: seq<Entry>, version: string, q: string, selected: seq<string>)
    : (r: seq<Change>)
    ensures FindEntry(changelog, version).None? ==> r == []
    ensures FindEntry(changelog, version).Some? ==>
      var changes := FindEntry(changelog, version).value.changes;
      exists idx :: && Embeds(idx, r, changes)
                    && forall i :: 0 <= i < |changes| ==> (i in idx <==> LibMatch.MatchChange(changes[i], q, selected))
  {
    match FindEntry(changelog, version)
    case None => []
    case Some(e) =>
      FilterChangesPositions(e.changes, LibMatcher, q, selected);
      FilterChanges(e.changes, LibMatcher, q, selected)
  }

  /** Selecting an already selected tag on the entry page leaves the shown changes as they were. */
  lemma {:induction false} RepeatedSelectionHarmless(changes: seq<Change>, q: string, selected: seq<string>, tag: string)
    requires tag in selected
    ensures FilterChanges(changes, LibMatcher, q, SelectTag(selected, tag))
         == FilterChanges(changes, LibMatcher, q, selected)
  {
    if |changes| > 0 {
      LibMatch.SelectionSetSuffices(changes[0], q, SelectTag(selected, tag), selected);
      RepeatedSelectionHarmless(changes[1..], q, selected, tag);
    }
  }

  datatype EntryPage =
    | EntryShown(entry: Entry, tags: seq<string>, changes: seq<Change>)
    | VersionNotFound(version: string)

  function EntryView(changelog: seq<Entry>, version: string, q: string, selected: seq<string>): (r: EntryPage)
    ensures r.VersionNotFound? <==> forall e :: e in changelog ==> e.version != version
    ensures r.VersionNotFound? ==> r.version == version
    ensures r.EntryShown? ==> Some(r.entry) == FindEntry(changelog, version)
    ensures r.EntryShown? ==>
      && NoDup(r.tags)
      && forall t :: t in r.tags <==> Aggregates.TagInChanges(r.entry.changes, t)
    ensures r.EntryShown? ==>
      exists idx :: && Embeds(idx, r.changes, r.entry.changes)
                    && forall i :: 0 <= i < |r.entry.changes| ==>
                         (i in idx <==> LibMatch.MatchChange(r.entry.changes[i], q, selected))
  {
    match FindEntry(changelog, version)
    case None => VersionNotFound(version)
    case Some(e) =>
      EntryShown(e, EntryTags(changelog, version), EntryFilteredChanges(changelog, version, q, selected))
  }

  /** The value the entry page receives as its `changelog` prop. */
  datatype EntryProp =
    | WrappedFile(file: ChangelogFile)  // the declared prop type
    | BareEntries(entries: seq<Entry>)  // what the list page passes

  /** The entry page as written either renders, or throws before rendering anything. */
  datatype EntryOutcome = Rendered(page: EntryPage) | Thrown

  /**
   * The entry page as written: it looks the version up in `changelog.entries`.
   * On the declared wrapped file that is the entry list. On a bare array it
   * is the array's `entries` iterator method, which has no `find`, so the
   * lookup throws a TypeError.
   */
  function EntryViewAsWritten(prop: EntryProp, version: string, q: string, selected: seq<string>): (r: EntryOutcome)
    ensures r.Thrown? <==> prop.BareEntries?
    ensures prop.WrappedFile? ==>
      && r.Rendered?
      && (r.page.VersionNotFound? <==> forall e :: e in prop.file.entries ==> e.version != version)
  {
    match prop
    case WrappedFile(file) => Rendered(EntryView(file.entries, version, q, selected))
    case BareEntries(_) => Thrown
  }

  /**
   * The list page opens the entry page with the bare entry list, so every
   * `?version=` link throws, even one naming a listed version; the intended page,
   * `EntryView` on that same list, shows the entry.
   */
  lemma EntryRouteAsWrittenThrows()
    ensures var v100 := Entry("v1.0.0", 20240101, "", "", []);
      && EntryViewAsWritten(BareEntries([v100]), "v1.0.0", "", []) == Thrown
      && EntryView([v100], "v1.0.0", "", []).EntryShown?
      && EntryView([v100], "v1.0.0", "", []).entry == v100
  {
  }

  // ---------------------------------------------------------------- routing

  /**
   * JavaScript truthiness of a search parameter from `searchParams.get`: an
   * absent parameter and the empty string are both falsy.
   */
  predicate Truthy(p: Option<string>) {
    p.Some? && p.value != ""
  }

  datatype Route =
    | ListRoute
    | EntryRoute(version: string)
    | ChangeRoute(version: string, id: string)

  /** `versionParam && !idParam`, then `versionParam && idParam`, else the list. */
  function Dispatch(versionParam: Option<string>, idParam: Option<string>): (r: Route)
    ensures r.EntryRoute? ==> Some(r.version) == versionParam
    ensures r.ChangeRoute? ==> Some(r.version) == versionParam && Some(r.id) == idParam
  {
    if Truthy(versionParam) && !Truthy(idParam) then EntryRoute(versionParam.value)
    else if Truthy(versionParam) && Truthy(idParam) then ChangeRoute(versionParam.value, idParam.value)
    else ListRoute
  }

  /**
   * The id alone never leaves the list, an empty parameter counts as absent,
   * and a non-empty version picks the entry or change page by the id.
   */
  lemma DispatchCases(versionParam: Option<string>, idParam: Option<string>)
    ensures !Truthy(versionParam) ==> Dispatch(versionParam, idParam) == ListRoute
    ensures Dispatch(versionParam, Some("")) == Dispatch(versionParam, None)
    ensures Truthy(versionParam) ==>
      (Dispatch(versionParam, idParam).ChangeRoute? <==> Truthy(idParam))
    ensures Truthy(versionParam) && !Truthy(idParam) ==>
      Dispatch(versionParam, idParam) == EntryRoute(versionParam.value)
  {
  }

  datatype Screen =
    | ListScreen(cards: seq<Card>)
    | EntryScreen(page: EntryPage)
    | ChangeScreen(lookup: ChangeLookup)

  /**
   * The page body once the changelog is loaded. The list uses the page's
   * filters; the entry page starts from its own empty query and selection.
   */
  function Render(changelog: seq<Entry>, versionParam: Option<string>, idParam: Option<string>, f: Filters)
    : (r: Screen)
    ensures r.ListScreen? <==> Dispatch(versionParam, idParam) == ListRoute
    ensures r.ListScreen? ==> |r.cards| == |FilteredChangelog(changelog, f, LibMatcher)|
    ensures r.ListScreen? ==>
      forall i :: 0 <= i < |r.cards| ==>
        && r.cards[i].entry == FilteredChangelog(changelog, f, LibMatcher)[i]
        && r.cards[i].changes == FilterChanges(r.cards[i].entry.changes, LibMatcher, f.searchQuery, f.selectedTags)
        && |r.cards[i].changes| > 0
    ensures r.EntryScreen? <==> Dispatch(versionParam, idParam).EntryRoute?
    ensures r.EntryScreen? ==>
      (r.page.VersionNotFound? <==> forall e :: e in changelog ==> e.version != versionParam.value)
    ensures r.EntryScreen? && r.page.EntryShown? ==>
      Some(r.page.entry) == FindEntry(changelog, versionParam.value) && r.page.changes == r.page.entry.changes
    ensures r.ChangeScreen? <==> Dispatch(versionParam, idParam).ChangeRoute?
    ensures r.ChangeScreen? ==>
      (r.lookup.Found? <==> FirstEntryHasChange(changelog, versionParam.value, idParam.value))
    ensures r.ChangeScreen? && r.lookup.Found? ==>
      r.lookup.change.id == idParam.value && Some(r.lookup.entry) == FindEntry(changelog, versionParam.value)
    ensures r.ChangeScreen? && r.lookup.NotFound? ==>
      r.lookup.id == idParam.value && r.lookup.version == versionParam.value
    ensures r.EntryScreen? && r.page.VersionNotFound? ==> r.page.version == versionParam.value
    ensures r.EntryScreen? && r.page.EntryShown? ==>
      && NoDup(r.page.tags)
      && forall t :: t in r.page.tags <==> Aggregates.TagInChanges(r.page.entry.changes, t)
  {
    match Dispatch(versionParam, idParam)
    case ListRoute =>
      CardsCoverFiltered(changelog, f, LibMatcher);
      ListScreen(Cards(FilteredChangelog(changelog, f, LibMatcher), LibMatcher, f.searchQuery, f.selectedTags))
    case EntryRoute(v) =>
      var page := EntryView(changelog, v, "", []);
      assert page.EntryShown? ==> page.changes == page.entry.changes by {
        if page.EntryShown? {
          NoFilterKeepsAllChanges(page.entry.changes, LibMatcher);
        }
      }
      EntryScreen(page)
    case ChangeRoute(v, id) => ChangeScreen(LookupChange(changelog, v, id))
  }

  /** A change link to a missing change shows a not-found page naming the id and the version asked for. */
  lemma MissingChangeReported(changelog: seq<Entry>, version: string, id: string, f: Filters)
    requires version != "" && id != ""
    requires !FirstEntryHasChange(changelog, version, id)
    ensures Render(changelog, Some(version), Some(id), f) == ChangeScreen(NotFound(id, version))
  {
  }

  // ---------------------------------------------------------------- whole-state facts

  /**
   * Clearing the filters gives back every entry that has changes, and the
   * effect that follows empties the expansion map.
   */
  lemma ClearThenEffect(changelog: seq<Entry>, f: Filters, m: Matcher, prev: ExpansionMap)
    ensures var c := ClearFilters(f);
      && FilteredChangelog(changelog, c, m) == NonEmptyEntries(changelog)
      && ExpansionEffect(prev, HasFilters(c), FilteredChangelog(changelog, c, m)) == map[]
  {
  }

  /**
   * Two entries, v1.0.0 tagged "fix" and v1.1.0 tagged "feat": selecting "fix"
   * keeps only v1.0.0 with its one change, and the effect expands it alone.
   */
  lemma TwoEntryScenario()
    ensures
      var fix := Change("a", "Fix crash", "", "", [], ["fix"]);
      var feat := Change("b", "Add export", "", "", [], ["feat"]);
      var v100 := Entry("v1.0.0", 20240101, "", "", [fix]);
      var v110 := Entry("v1.1.0", 20240201, "", "", [feat]);
      var f := Filters("", ["fix"], "", None);
      && FilteredChangelog([v100, v110], f, LibMatcher) == [v100]
      && Cards([v100], LibMatcher, "", ["fix"]) == [Card(v100, [fix])]
      && ExpansionEffect(map[], HasFilters(f), [v100]) == map["v1.0.0" := true]
  {
    var fix := Change("a", "Fix crash", "", "", [], ["fix"]);
    var v100 := Entry("v1.0.0", 20240101, "", "", [fix]);
    assert FilterChanges([fix], LibMatcher, "", ["fix"]) == [fix];
    assert [v100][1..] == [];
    assert VersionSet([v100]) == {"v1.0.0"};
  }
}

=== FILE: wrappers.dfy ===
/** Optional values: the model's stand-in for `undefined` results and absent fields. */
module Wrappers {

  datatype Option<+T> = None | Some(value: T)
}
